=== FILE: README.md ===
# Hierarchy and prefab YAML export, modelled in Dafny

Two Unity editor commands write a game-object tree as indented, YAML-like
text:

- "Export Hierarchy to YAML" (`HierarchyYamlExporter`) serializes every
  root of the active scene, one after another, into
  `Assets/HierarchyExport.yaml`.
- "Export Selected Prefab to YAML" (`PrefabYamlExporter`) serializes the
  selected prefab into `Assets/PrefabExport_<name>.yaml`. It writes nothing
  when the selected asset does not load as a GameObject.

Both commands rest on a recursive `AppendGameObjectYAML(obj, indent, sb)`.
For each game object it appends:

- the header `- GameObject: <name>`;
- a four-line `Transform:` block (position, rotation, scale, each written
  with `F2`);
- for each component that is not skipped, a `Component: <type name>` line
  followed by that component's field lines;
- the blocks of the object's children, one level deeper, in child order.

Each level of depth indents by two blanks. The two copies differ in two
ways:

- The scene export skips only the exact `Transform` type. The prefab export
  skips every `Transform`, subclasses included.
- The scene export prints fixed properties for Camera, Light, Collider and
  Rigidbody. The prefab export does not.

The model is a set of pure functions over an inductive tree. The files are:

- `scene.dfy` (module `Scene`): the tree.
  - A `Node` has a name, a local position, rotation and scale, an ordered
    component list and ordered children.
  - A `Component` is one of `Null`, `Transform` (exact type or a named
    subclass), `Camera`, `Light`, `Collider`, `Rigidbody`, `Script` (with
    its public fields in reflection order) or `OtherBuiltin`.
  - `PreOrder` is the reference depth-first walk.
- `serializer.dfy` (module `Serializer`): the serializer itself.
  - Every `AppendLine` of the source is one `Line` value.
  - `Render` gives the exact text that call appends.
  - `Block(e, n, depth)` is what one `AppendGameObjectYAML` call appends.
  - `e` is the `Exporter`: `Hierarchy` for the scene copy, `Prefab` for the
    prefab copy.
- `fixed_point.dfy` (module `FixedPoint`): the `F2` formatting of a
  coordinate, taken as its rounded number of hundredths, and a parser that
  reads it back.
- `lines.dfy` (module `Lines`):
  - indentation and the counting of leading blanks;
  - the newline-terminated text a `StringBuilder` fed with `AppendLine`
    holds, and splitting that text back into lines.
- `traversal.dfy` (module `Traversal`): structural facts.
  - The block is the pre-order walk's records.
  - Own lines come before any descendant's lines.
  - There is one object header per node, and one component header per
    emitted component.
- `rendering.dfy` (module `Rendering`): facts about the text.
  - Each line's column.
  - A reader that finds the `- GameObject: ` headers again and recovers
    the tree's pre-order, depths and names from them.
- `exporters.dfy` (module `Exporters`):
  - the two menu commands;
  - the exact condition under which both copies produce the same text.

## Model

| member | source | states |
|---|---|---|
| Lines.Indent | Assets/Editor/HierarchyMarkdownExporter.cs:28 | Definition (no contract): `new string(' ', indent * 2)`, two blanks per level of depth, the same in PrefabYamlExporter.cs line 33; stated by Lines.IndentStep, Lines.ColumnOf and Lines.ColumnAtLeast |
| Lines.IndentStep | Assets/Editor/HierarchyMarkdownExporter.cs:28-36 | The extra two blanks of `{ind}  X` are one more level of indentation: `Indent(d) + "  " == Indent(d + 1)` |
| Lines.BlanksBefore | Assets/Editor/HierarchyMarkdownExporter.cs:28-29 | The blanks put in front of a line add exactly their number to its leading whitespace |
| Lines.ColumnOf | Assets/Editor/HierarchyMarkdownExporter.cs:28-29 | A text that does not start with a blank, written at depth d, starts exactly at column 2·d |
| Lines.ColumnAtLeast | Assets/Editor/HierarchyMarkdownExporter.cs:28-29 | Whatever the text, a line written at depth d is indented at least 2·d columns |
| Lines.Text | Assets/Editor/HierarchyMarkdownExporter.cs:13-21 | The buffer's text is each appended line followed by a newline, in order: empty exactly when nothing was appended, and otherwise ending in a newline |
| Lines.TextAppend | Assets/Editor/HierarchyMarkdownExporter.cs:13-18 | Appending lines to one buffer call after call gives the text of all the lines in order |
| Lines.SplitText | Assets/Editor/HierarchyMarkdownExporter.cs:29-36 | Text built with `AppendLine` splits back into exactly the appended lines when none of them contains a newline |
| FixedPoint.NatText | Assets/Editor/HierarchyMarkdownExporter.cs:34-36 | The integer part of an `F2` number is non-empty decimal digits with no leading zero unless it is 0 |
| FixedPoint.F2 | Assets/Editor/HierarchyMarkdownExporter.cs:34-36 | A finite `F2` coordinate has one point followed by exactly two digits, no other point, and a leading minus exactly when negative |
| FixedPoint.NatValueOfText | Assets/Editor/HierarchyMarkdownExporter.cs:34-36 | The digits written for an integer part read back as that number |
| FixedPoint.UnsignedF2RoundTrip | Assets/Editor/HierarchyMarkdownExporter.cs:34-36 | A non-negative `F2` text reads back as the hundredths it was written from |
| FixedPoint.F2RoundTrip | Assets/Editor/HierarchyMarkdownExporter.cs:34-36 | Every written coordinate, negative ones included, reads back as the value it renders |
| Scene.PreOrder | Assets/Editor/HierarchyMarkdownExporter.cs:85-89 | The walk visits the node first, then its descendants, all deeper; it has one visit per node |
| Scene.TypeName | Assets/Editor/HierarchyMarkdownExporter.cs:44-45 | Definition (no contract): `type.Name` of a present component, `Transform` or the subclass's name for a transform, the fixed kind name for Camera, Light and Rigidbody, the recorded name otherwise; its use is stated by Serializer.ComponentSkip and Traversal.ComponentsHeaders |
| Serializer.Label | Assets/Editor/HierarchyMarkdownExporter.cs:34-36 | Definition (no contract): the labels `Position: `, `Rotation: ` and `Scale:    ` (four blanks after `Scale:`, so the brackets line up); stated by Rendering.VectorLineText and Rendering.DocumentStart |
| Serializer.VectorText | Assets/Editor/HierarchyMarkdownExporter.cs:34-36 | Definition (no contract): a vector as `[x, y, z]`, each coordinate written with `F2`; stated by Rendering.VectorLineText |
| Serializer.Coordinates | Assets/Editor/HierarchyMarkdownExporter.cs:34-36 | Definition (no contract): the coordinates in order, each written with `F2`, joined by `, `; the shape of each is stated by FixedPoint.F2 and its reading back by FixedPoint.F2RoundTrip |
| Serializer.Render | Assets/Editor/HierarchyMarkdownExporter.cs:28-80 | Definition (no contract): the exact text of each `AppendLine`, `{ind}` being 2·depth blanks; its columns are stated by Rendering.RenderColumn and its texts by Rendering.ObjectHeaderText through Rendering.FieldLineText |
| Serializer.ValueText | Assets/Editor/HierarchyMarkdownExporter.cs:78-79 | Definition (no contract): the value's text, or `null` when the value is absent; stated by Serializer.ScriptFieldLines and Serializer.ScriptProjection |
| Serializer.Skipped | Assets/Editor/HierarchyMarkdownExporter.cs:42-46 | Definition (no contract): the `continue` of the component loop, taken for a null entry and for the exact `Transform` type (the scene copy) or any `Transform` (the prefab copy, PrefabYamlExporter.cs line 45); stated by Serializer.ComponentSkip |
| Serializer.BuiltinFieldLines | Assets/Editor/HierarchyMarkdownExporter.cs:51-70 | Definition (no contract): the two fixed property lines of a Camera, Light, Collider or Rigidbody, none for any other kind; stated by Serializer.HierarchyProjection |
| Serializer.FieldLines | Assets/Editor/HierarchyMarkdownExporter.cs:50-82 | Definition (no contract): where the copies differ: the built-in property lines for the scene export only, then the script's field lines under both; stated by Serializer.HierarchyProjection, Serializer.PrefabProjection, Serializer.ScriptProjection and Serializer.ComponentFieldNames |
| Serializer.ComponentLines | Assets/Editor/HierarchyMarkdownExporter.cs:40-82 | Definition (no contract): one pass of the component loop, nothing when skipped, else the header then the built-in and script field lines; stated by Serializer.ComponentSkip, Serializer.HierarchyProjection, Serializer.PrefabProjection and Serializer.ScriptProjection |
| Serializer.ComponentsLines | Assets/Editor/HierarchyMarkdownExporter.cs:39-83 | Definition (no contract): the component `foreach`, each component's lines in list order (PrefabYamlExporter.cs lines 42-59 in the prefab copy); stated by Traversal.ComponentsDepth, Traversal.ComponentsHeaders and Exporters.ComponentsAgree |
| Serializer.TransformLines | Assets/Editor/HierarchyMarkdownExporter.cs:33-36 | Definition (no contract): the `Transform:` line, then local position, Euler rotation and scale, in that order; stated by Rendering.BlockStart and Rendering.DocumentStart |
| Serializer.OwnLines | Assets/Editor/HierarchyMarkdownExporter.cs:28-83 | Definition (no contract): a node's own lines, the header, the transform block and the component loop, before any child; stated by Traversal.OwnHeader, Traversal.OwnComponentHeaders and Traversal.BlockDepths |
| Serializer.Block | Assets/Editor/HierarchyMarkdownExporter.cs:26-90 | Definition (no contract): one `AppendGameObjectYAML(obj, depth, sb)` call, the object's own lines then its children's blocks one level deeper; stated by Traversal.BlockIsPreOrder, Traversal.BlockDepths, Rendering.BlockStart and Rendering.DocumentOutline |
| Serializer.Blocks | Assets/Editor/HierarchyMarkdownExporter.cs:85-89 | Definition (no contract): the recursive calls over a list of siblings, in order, each at the same depth; stated by Traversal.BlocksAppend, Traversal.BlocksArePreOrder and Exporters.RootsInOrder |
| Serializer.ScriptFieldLines | Assets/Editor/HierarchyMarkdownExporter.cs:73-82 | One field line per public field, in reflection order, none added or left out, `null` for an absent value |
| Serializer.ComponentFieldNames | Assets/Editor/HierarchyMarkdownExporter.cs:50-82 | Every field line of a component is named either by one of FOV, ClearFlags, Type, Intensity, IsTrigger, Enabled, Mass and UseGravity (scene export, non-script components only) or by one of the script's own fields |
| Serializer.ComponentSkip | Assets/Editor/HierarchyMarkdownExporter.cs:40-48 | A component yields no lines exactly when it is null or a `Transform`: only the exact type for the scene export, subclasses too for the prefab export; every other component starts with its `Component: <type name>` header |
| Serializer.HierarchyProjection | Assets/Editor/HierarchyMarkdownExporter.cs:48-70 | Scene export: Camera gives FOV then ClearFlags, Light gives Type then Intensity, Collider gives IsTrigger then Enabled, Rigidbody gives Mass then UseGravity; a Transform subclass or other built-in gives its header only |
| Serializer.PrefabProjection | Assets/Editor/PrefabYamlExporter.cs:45-58 | Prefab export: every built-in kind gives its header line and no field lines |
| Serializer.ScriptProjection | Assets/Editor/HierarchyMarkdownExporter.cs:73-82 | Under either exporter a script gives its header, then exactly one `<name>: <value>` line per public field in order, with `null` for an absent value |
| Traversal.RecordsAppend | Assets/Editor/HierarchyMarkdownExporter.cs:26-90 | The records of two walks one after the other are the records of the joined walk |
| Traversal.BlocksAppend | Assets/Editor/HierarchyMarkdownExporter.cs:13-18 | Serializing more roots appends to what the earlier roots produced |
| Traversal.BlockIsPreOrder | Assets/Editor/HierarchyMarkdownExporter.cs:26-90 | A block is each node's own lines (header, transform, components) listed in depth-first pre-order at the node's depth |
| Traversal.BlocksArePreOrder | Assets/Editor/HierarchyMarkdownExporter.cs:85-89 | The children's blocks are the records of the walk over the children in child order |
| Traversal.ComponentDepth | Assets/Editor/HierarchyMarkdownExporter.cs:48-80 | Every line a component contributes belongs to the object at the current depth |
| Traversal.ComponentsDepth | Assets/Editor/HierarchyMarkdownExporter.cs:39-83 | Every line of the component loop belongs to the object at the current depth |
| Traversal.BlockDepths | Assets/Editor/HierarchyMarkdownExporter.cs:39-89 | A block starts with the node's own lines, all at its depth, and every later line (the child blocks) is deeper: all component lines come before any child block |
| Traversal.BlocksDepths | Assets/Editor/HierarchyMarkdownExporter.cs:85-89 | No line of the children's blocks is shallower than the children |
| Traversal.ComponentsNoObjectHeader | Assets/Editor/HierarchyMarkdownExporter.cs:39-83 | The component loop writes no object header |
| Traversal.OwnHeader | Assets/Editor/HierarchyMarkdownExporter.cs:28-83 | A node's own lines contain exactly one object header, its own |
| Traversal.RecordsHeaders | Assets/Editor/HierarchyMarkdownExporter.cs:26-90 | The object headers of the records of a walk are one per visit, in visit order, with the visit's depth and name |
| Traversal.BlockHeaders | Assets/Editor/HierarchyMarkdownExporter.cs:26-90 | The object headers of a block are those of the pre-order walk; their number is the number of nodes in the tree |
| Traversal.ComponentHeaderOnce | Assets/Editor/HierarchyMarkdownExporter.cs:40-48 | A component yields one component header, named by its type, when not skipped and none otherwise |
| Traversal.ComponentsHeaders | Assets/Editor/HierarchyMarkdownExporter.cs:39-83 | The component headers written are the type names of the components not skipped, in component order |
| Traversal.OwnComponentHeaders | Assets/Editor/PrefabYamlExporter.cs:42-59 | The component headers among a node's own lines name exactly the components not skipped, in list order |
| Rendering.RenderColumn | Assets/Editor/HierarchyMarkdownExporter.cs:28-80 | The header starts at 2·d, `Transform:` and component headers at 2·d+2, vector and field lines at 2·d+4 (a field line further in only when its name starts with a blank) |
| Rendering.ObjectHeaderColumn | Assets/Editor/HierarchyMarkdownExporter.cs:28-29 | The object header starts at column 2·d |
| Rendering.TransformHeaderColumn | Assets/Editor/HierarchyMarkdownExporter.cs:33 | `Transform:` starts at column 2·d+2 |
| Rendering.ComponentHeaderColumn | Assets/Editor/HierarchyMarkdownExporter.cs:48 | `Component:` starts at column 2·d+2 |
| Rendering.VectorLineColumn | Assets/Editor/HierarchyMarkdownExporter.cs:34-36 | The Position, Rotation and Scale lines start at column 2·d+4 |
| Rendering.FieldLineColumn | Assets/Editor/HierarchyMarkdownExporter.cs:53-80 | A field line starts at column 2·d+4 unless its name itself starts with blanks |
| Rendering.HeaderAfterBlanks | Assets/Editor/HierarchyMarkdownExporter.cs:28-29 | After indentation a line is a header exactly when its text starts with `- GameObject: `; the reader then gets the indentation as column and the rest as name |
| Rendering.NotHeader | Assets/Editor/HierarchyMarkdownExporter.cs:33-80 | A line whose text starts with neither a blank nor `-` is never read as an object header |
| Rendering.ObjectHeaderRecognized | Assets/Editor/HierarchyMarkdownExporter.cs:28-29 | The header line is read back as a header with column 2·d and the object's name |
| Rendering.TransformHeaderUnmarked | Assets/Editor/HierarchyMarkdownExporter.cs:33 | The `Transform:` line is not read as an object header |
| Rendering.ComponentHeaderUnmarked | Assets/Editor/HierarchyMarkdownExporter.cs:48 | A `Component:` line is not read as an object header |
| Rendering.VectorLineUnmarked | Assets/Editor/HierarchyMarkdownExporter.cs:34-36 | A Position, Rotation or Scale line is not read as an object header |
| Rendering.FieldLineUnmarked | Assets/Editor/HierarchyMarkdownExporter.cs:80 | A field line with an identifier-like name is not read as an object header |
| Rendering.RecognizeHeader | Assets/Editor/HierarchyMarkdownExporter.cs:29-80 | With identifier-like field names, a written line is read as an object header exactly when it is one, and then yields its column and the object's name |
| Rendering.OutlineOf | Assets/Editor/HierarchyMarkdownExporter.cs:26-90 | A text whose every line reads back as its line has as headings exactly those lines' object headers, in order |
| Rendering.OutlineOfRendered | Assets/Editor/HierarchyMarkdownExporter.cs:26-90 | Reading the written text of lines with identifier-like field names finds exactly their object headers, in order |
| Rendering.ComponentNamesOk | Assets/Editor/HierarchyMarkdownExporter.cs:51-82 | When a script's field names are identifier-like, every field line the component writes has an identifier-like name (the built-in property names are) |
| Rendering.BlockNamesOk | Assets/Editor/HierarchyMarkdownExporter.cs:26-90 | In a tree whose scripts have identifier-like field names, every field line of the block has one |
| Rendering.DocumentOutline | Assets/Editor/HierarchyMarkdownExporter.cs:26-90 | Reading the headers back from the text gives one heading per node, in depth-first pre-order, each at twice the node's depth and with its name |
| Rendering.DocumentColumns | Assets/Editor/PrefabYamlExporter.cs:33-65 | The root header sits at 2·depth, no line of the subtree is indented less, and every line starts at its column (for either exporter) |
| Rendering.ObjectHeaderText | Assets/Editor/HierarchyMarkdownExporter.cs:28-29 | The header line is `{ind}- GameObject: <name>` |
| Rendering.TransformHeaderText | Assets/Editor/HierarchyMarkdownExporter.cs:33 | The transform line is `{ind}  Transform:` |
| Rendering.VectorLineText | Assets/Editor/HierarchyMarkdownExporter.cs:34-36 | A vector line is `{ind}    ` then its label and the bracketed coordinates |
| Rendering.ComponentHeaderText | Assets/Editor/HierarchyMarkdownExporter.cs:48 | A component header is `{ind}  Component: <type name>` |
| Rendering.FieldLineText | Assets/Editor/HierarchyMarkdownExporter.cs:80 | A field line is `{ind}    <name>: <value>` |
| Rendering.BlockStart | Assets/Editor/PrefabYamlExporter.cs:34-40 | A block opens with the object header, then `Transform:`, Position, Rotation and Scale, in that order |
| Rendering.DocumentStart | Assets/Editor/HierarchyMarkdownExporter.cs:28-36 | The text of a block opens with `{ind}- GameObject: <name>`, `{ind}  Transform:` and the three vector lines with their labels, in order |
| Exporters.ExportHierarchy | Assets/Editor/HierarchyMarkdownExporter.cs:11-21 | The scene file is written to `Assets/HierarchyExport.yaml` and holds the text of the roots' depth-0 blocks in root order |
| Exporters.RootsInOrder | Assets/Editor/HierarchyMarkdownExporter.cs:15-18 | The scene text holds the earlier roots' blocks, then the i-th root's block, then the later roots' blocks |
| Exporters.SceneHeaders | Assets/Editor/HierarchyMarkdownExporter.cs:13-18 | The scene text has one object header per game object of the scene, in pre-order over the roots in order |
| Exporters.ExportSelectedPrefab | Assets/Editor/PrefabYamlExporter.cs:10-26 | No export exactly when the selection does not resolve to a game object; otherwise the root's block at depth 0, written to `Assets/PrefabExport_<name>.yaml` |
| Exporters.PrefabExportPath | Assets/Editor/PrefabYamlExporter.cs:25 | Definition (no contract): `Assets/PrefabExport_<name>.yaml` for the prefab root's name; stated by Exporters.ExportSelectedPrefab and Exporters.PrefabExportPathInjective |
| Exporters.PrefabExportPathInjective | Assets/Editor/PrefabYamlExporter.cs:25 | Two prefabs share an export path string exactly when they share a name |
| Exporters.PrefabFileLines | Assets/Editor/PrefabYamlExporter.cs:22-26 | The prefab file splits back into the block's lines when no line contains a newline |
| Exporters.ComponentAgree | Assets/Editor/PrefabYamlExporter.cs:42-58 | On one component the copies agree exactly when it is not Camera, Light, Collider, Rigidbody or a `Transform` subclass; otherwise the prefab copy writes fewer lines |
| Exporters.ComponentsAgree | Assets/Editor/PrefabYamlExporter.cs:42-59 | The copies' component loops agree when every component is plain; otherwise the prefab copy writes fewer lines |
| Exporters.BlocksAgree | Assets/Editor/PrefabYamlExporter.cs:31-66 | The copies' blocks agree on a tree with only plain components; otherwise the prefab copy's block is strictly shorter |
| Exporters.ForestAgree | Assets/Editor/PrefabYamlExporter.cs:62-65 | The same holds for a list of sibling trees |
| Exporters.ExportersAgree | Assets/Editor/PrefabYamlExporter.cs:31-66 | The prefab copy writes the same block as the scene copy exactly when no node has a Camera, Light, Collider, Rigidbody or `Transform` subclass, and never a longer one |
| Exporters.SceneAsPrefabs | Assets/Editor/HierarchyMarkdownExporter.cs:13-18 | For a scene with only plain components, the scene text equals what the prefab copy would write for the same roots |

## Left out

- Unity engine access is not modelled: `SceneManager`, `Selection`, `AssetDatabase.GetAssetPath`/`LoadAssetAtPath`, `GetComponents` and child enumeration. The tree, its roots and the resolved selection (an `Option`) are inputs.
- The file write, `AssetDatabase.Refresh`, `Debug.Log` and `Debug.LogWarning` are side effects and are not modelled. An export is the path and the text that would be written there.
- Editor glue (`MenuItem` attributes, the `EditorWindow` base class) has no behaviour to model.
- .NET reflection is not modelled: a script arrives with its public instance fields already enumerated, as names with optional value texts.
- `ToString()` of floats, enums and booleans is not modelled. Camera, Light, Collider and Rigidbody properties and script values are the texts that call would produce.
- FixedPoint.F2: the float's rounding to hundredths and the quaternion-to-Euler conversion are not modelled. A coordinate is its already-rounded number of hundredths. Non-finite floats are not modelled: `F2` writes NaN and the infinities as `NaN`, `Infinity` and `-Infinity` (`∞`, `-∞` on newer runtimes), with no point or decimals, so the one-point-two-digits shape holds only for finite coordinates. The source formats with the editor's current culture; the model writes the invariant culture's `.`, whereas a comma-decimal locale writes `[1,00, 0,00, -2,50]`.
- FixedPoint.F2: a negative value that rounds to zero is written `0.00`. Whether the runtime keeps its minus sign (`-0.00`) depends on its formatting rules, which are not modelled.
- Lines.Text ends every line with `\n`. `AppendLine` uses `Environment.NewLine`, which is `\r\n` on Windows.
- Determinism needs no lemma: every serializer member is a pure function of the tree.
- Cycles and stack depth are not modelled. The code has no cycle detection, and trees here are finite inductive values.
- Rendering.RecognizeHeader, Rendering.DocumentOutline and Rendering.DocumentColumns (exact columns) require identifier-like field names: non-empty, not starting with a blank or `-`. C# field names meet this. Without it a field named like `- GameObject: x` would be read as a header.
- Exporters.PrefabFileLines requires that no written line contains a newline. Object names and value texts are not checked for one by the source.
- Exporters.PrefabExportPathInjective is about path strings: on a case-insensitive file system two names differing only in case still name one file. Case folding is not modelled.
- What `AssetDatabase.GetAssetPath` and `LoadAssetAtPath<GameObject>` resolve the selection to (a prefab asset, a model asset, or no asset at all) is not modelled; the export only sees whether a game object was loaded.

=== FILE: exporters.dfy ===
/** The two menu commands around the serializer: the scene export writes the
    blocks of the active scene's roots one after another, the prefab export
    writes the block of the selected asset, or nothing when the selected
    asset does not load as a game object. The file write itself is left to
    the caller: an export is the path and the text that would be written
    there. */
module Exporters {
  import opened Wrappers
  import opened Lines
  import opened Scene
  import opened Serializer
  import opened Traversal

  datatype Export = Export(path: string, contents: string)

  const HierarchyExportPath: string := "Assets/HierarchyExport.yaml"

  const PrefabExportPrefix: string := "Assets/PrefabExport_"
  const PrefabExportSuffix: string := ".yaml"

  /** `Assets/PrefabExport_<name>.yaml`. */
  function PrefabExportPath(name: string): string
  {
    PrefabExportPrefix + name + PrefabExportSuffix
  }

  /** The prefab's name is recovered from the path: prefabs with different
      names get different path strings. */
  lemma PrefabExportPathInjective(a: string, b: string)
    ensures PrefabExportPath(a) == PrefabExportPath(b) <==> a == b
  {
    if PrefabExportPath(a) == PrefabExportPath(b) {
      var p := PrefabExportPath(a);
      assert a == p[|PrefabExportPrefix|..|p| - |PrefabExportSuffix|];
      assert b == p[|PrefabExportPrefix|..|p| - |PrefabExportSuffix|];
    }
  }

  lemma RenderAllAppend(a: seq<Line>, b: seq<Line>)
    ensures RenderAll(a + b) == RenderAll(a) + RenderAll(b)
  {
  }

  /** `ExportHierarchy`: one `AppendGameObjectYAML(root, 0, sb)` per root of
      the active scene, in root order, into one buffer. */
  method ExportHierarchy(roots: seq<Node>) returns (out: Export)
    ensures out.path == HierarchyExportPath
    ensures out.contents == Text(RenderAll(Blocks(Hierarchy, roots, 0)))
  {
    var sb: string := [];
    for i := 0 to |roots|
      invariant sb == Text(RenderAll(Blocks(Hierarchy, roots[..i], 0)))
    {
      var before := Blocks(Hierarchy, roots[..i], 0);
      var block := Block(Hierarchy, roots[i], 0);
      assert roots[..i + 1] == roots[..i] + [roots[i]];
      BlocksAppend(Hierarchy, roots[..i], [roots[i]], 0);
      assert Blocks(Hierarchy, [roots[i]], 0) == block;
      RenderAllAppend(before, block);
      TextAppend(RenderAll(before), RenderAll(block));
      sb := sb + Text(Document(Hierarchy, roots[i], 0));
    }
    assert roots[..|roots|] == roots;
    out := Export(HierarchyExportPath, sb);
  }

  lemma SingleBlock(e: Exporter, n: Node, depth: nat)
    ensures Blocks(e, [n], depth) == Block(e, n, depth)
  {
    assert [n][1..] == [];
  }

  /** A document of several trees holds each tree's block in order: the
      trees before the `i`-th, then its block, then the later trees. */
  lemma RootsInOrder(e: Exporter, roots: seq<Node>, i: nat)
    requires i < |roots|
    ensures Blocks(e, roots, 0) ==
      Blocks(e, roots[..i], 0) + Block(e, roots[i], 0) + Blocks(e, roots[i + 1..], 0)
  {
    var before := roots[..i];
    var after := roots[i + 1..];
    assert roots == before + ([roots[i]] + after);
    BlocksAppend(e, before, [roots[i]] + after, 0);
    BlocksAppend(e, [roots[i]], after, 0);
    SingleBlock(e, roots[i], 0);
    assert Blocks(e, before, 0) + (Block(e, roots[i], 0) + Blocks(e, after, 0))
      == Blocks(e, before, 0) + Block(e, roots[i], 0) + Blocks(e, after, 0);
  }

  /** The scene document has one object header per game object of the scene,
      in pre-order over the roots taken in order. */
  lemma SceneHeaders(roots: seq<Node>)
    ensures ObjectHeaders(Blocks(Hierarchy, roots, 0)) == HeadersOf(ForestPreOrder(roots, 0))
    ensures |ObjectHeaders(Blocks(Hierarchy, roots, 0))| == ForestSize(roots)
  {
    BlocksArePreOrder(Hierarchy, roots, 0);
    RecordsHeaders(Hierarchy, ForestPreOrder(roots, 0));
  }

  /** `ExportSelectedPrefab`: when the selection does not load as a game
      object, the command warns and writes nothing; otherwise it writes the
      prefab's block at depth 0 to a file named after it. */
  function ExportSelectedPrefab(selected: Option<Node>): (r: Option<Export>)
    ensures r.None? <==> selected.None?
    ensures r.Some? ==> r.value.path == PrefabExportPath(selected.value.name)
    ensures r.Some? ==> r.value.contents == Text(Document(Prefab, selected.value, 0))
  {
    match selected
    case None => None
    case Some(root) => Some(Export(PrefabExportPath(root.name), Text(Document(Prefab, root, 0))))
  }

  /** The prefab file reads back, line by line, as the prefab's block, as
      long as no name or value in it contains a line break. */
  lemma PrefabFileLines(root: Node)
    requires NoNewLines(Document(Prefab, root, 0))
    ensures SplitLines(ExportSelectedPrefab(Some(root)).value.contents) == Document(Prefab, root, 0)
  {
    SplitText(Document(Prefab, root, 0));
  }

  /** A component both exporters treat alike: not a built-in kind the scene
      export projects fields for, and not a `Transform` subclass. */
  predicate PlainComponent(c: Component)
  {
    !(c.Camera? || c.Light? || c.Collider? || c.Rigidbody? || (c.Transform? && c.subclass.Some?))
  }

  predicate PlainComponents(cs: seq<Component>)
  {
    forall i :: 0 <= i < |cs| ==> PlainComponent(cs[i])
  }

  /** Every node of the tree has only plain components. */
  predicate Plain(n: Node)
    decreases n
  {
    PlainComponents(n.components) && forall i :: 0 <= i < |n.children| ==> Plain(n.children[i])
  }

  predicate ForestPlain(ns: seq<Node>)
  {
    forall i :: 0 <= i < |ns| ==> Plain(ns[i])
  }

  /** The scene export writes at least the prefab export's lines for a
      component, the same lines exactly for a plain one, and more for any
      other. */
  lemma ComponentAgree(c: Component, depth: nat)
    ensures PlainComponent(c) ==> ComponentLines(Prefab, c, depth) == ComponentLines(Hierarchy, c, depth)
    ensures !PlainComponent(c) ==> |ComponentLines(Prefab, c, depth)| < |ComponentLines(Hierarchy, c, depth)|
  {
    if c.Script? {
      ScriptProjection(Prefab, c, depth);
      ScriptProjection(Hierarchy, c, depth);
    } else if !c.Null? && !c.Transform? {
      HierarchyProjection(c, depth);
      PrefabProjection(c, depth);
    }
  }

  /** ComponentsAgree, BlocksAgree and ForestAgree are helpers for
      ExportersAgree. They take the two exporters as parameters pinned by
      `requires p.Prefab? && h.Hierarchy?` because literal `Prefab` and
      `Hierarchy` arguments make the verifier unfold every call eagerly. */
  lemma {:induction false} ComponentsAgree(p: Exporter, h: Exporter, cs: seq<Component>, depth: nat)
    requires p.Prefab? && h.Hierarchy?
    ensures |ComponentsLines(p, cs, depth)| <= |ComponentsLines(h, cs, depth)|
    ensures PlainComponents(cs) ==> ComponentsLines(p, cs, depth) == ComponentsLines(h, cs, depth)
    ensures !PlainComponents(cs) ==> |ComponentsLines(p, cs, depth)| < |ComponentsLines(h, cs, depth)|
    decreases |cs|
  {
    if |cs| > 0 {
      ComponentAgree(cs[0], depth);
      ComponentsAgree(p, h, cs[1..], depth);
      if PlainComponents(cs) {
        assert forall i :: 0 <= i < |cs[1..]| ==> cs[1..][i] == cs[i + 1];
      } else if PlainComponent(cs[0]) {
        var i :| 0 <= i < |cs| && !PlainComponent(cs[i]);
        assert cs[1..][i - 1] == cs[i];
      }
    }
  }

  /** The two exporters write the same block for a tree exactly when no node
      of it has a Camera, Light, Collider, Rigidbody or `Transform` subclass;
      otherwise the scene export's block is strictly longer. */
  lemma ExportersAgree(n: Node, depth: nat)
    ensures Block(Prefab, n, depth) == Block(Hierarchy, n, depth) <==> Plain(n)
    ensures |Block(Prefab, n, depth)| <= |Block(Hierarchy, n, depth)|
  {
    BlocksAgree(Prefab, Hierarchy, n, depth);
  }

  lemma {:induction false} BlocksAgree(p: Exporter, h: Exporter, n: Node, depth: nat)
    requires p.Prefab? && h.Hierarchy?
    ensures Plain(n) ==> Block(p, n, depth) == Block(h, n, depth)
    ensures !Plain(n) ==> |Block(p, n, depth)| < |Block(h, n, depth)|
    decreases n
  {
    var head := [ObjectHeader(depth, n.name)] + TransformLines(n, depth);
    var cp := ComponentsLines(p, n.components, depth);
    var ch := ComponentsLines(h, n.components, depth);
    var kp := Blocks(p, n.children, depth + 1);
    var kh := Blocks(h, n.children, depth + 1);
    assert Block(p, n, depth) == head + cp + kp;
    assert Block(h, n, depth) == head + ch + kh;
    ComponentsAgree(p, h, n.components, depth);
    ForestAgree(p, h, n.children, depth + 1);
    assert Plain(n) <==> PlainComponents(n.components) && ForestPlain(n.children);
    if !Plain(n) {
      assert |head + cp + kp| < |head + ch + kh|;
    }
  }

  lemma {:induction false} ForestAgree(p: Exporter, h: Exporter, ns: seq<Node>, depth: nat)
    requires p.Prefab? && h.Hierarchy?
    ensures ForestPlain(ns) ==> Blocks(p, ns, depth) == Blocks(h, ns, depth)
    ensures !ForestPlain(ns) ==> |Blocks(p, ns, depth)| < |Blocks(h, ns, depth)|
    decreases ns
  {
    if |ns| > 0 {
      var bp := Block(p, ns[0], depth);
      var bh := Block(h, ns[0], depth);
      var rp := Blocks(p, ns[1..], depth);
      var rh := Blocks(h, ns[1..], depth);
      assert Blocks(p, ns, depth) == bp + rp;
      assert Blocks(h, ns, depth) == bh + rh;
      BlocksAgree(p, h, ns[0], depth);
      ForestAgree(p, h, ns[1..], depth);
      assert ForestPlain(ns) <==> Plain(ns[0]) && ForestPlain(ns[1..]) by {
        if Plain(ns[0]) && ForestPlain(ns[1..]) {
          forall i | 0 <= i < |ns|
            ensures Plain(ns[i])
          {
            if i > 0 {
              assert ns[i] == ns[1..][i - 1];
            }
          }
        }
      }
      if !ForestPlain(ns) {
        assert |bp + rp| < |bh + rh|;
      }
    }
  }

  /** On a scene with only plain components, the scene file's text is what
      the prefab export would write for the same roots. */
  lemma SceneAsPrefabs(roots: seq<Node>)
    requires ForestPlain(roots)
    ensures Blocks(Hierarchy, roots, 0) == Blocks(Prefab, roots, 0)
  {
    ForestAgree(Prefab, Hierarchy, roots, 0);
  }

}

=== FILE: fixed_point.dfy ===
/** The `F2` rendering of the transform coordinates. A coordinate is taken
    as a whole number of hundredths, the value `F2` has already rounded to;
    the module writes it with an optional minus sign, the integer part
    without leading zeros, a point and exactly two decimals, and reads such
    a text back. */
module FixedPoint {
  import opened Wrappers

  predicate IsDigit(c: char)
  {
    '0' <= c <= '9'
  }

  predicate AllDigits(s: string)
  {
    forall i :: 0 <= i < |s| ==> IsDigit(s[i])
  }

  function DigitChar(d: nat): (c: char)
    requires d < 10
    ensures IsDigit(c) && c as int - '0' as int == d
  {
    ('0' as int + d) as char
  }

  function DigitValue(c: char): (d: nat)
    requires IsDigit(c)
    ensures d < 10
    ensures DigitChar(d) == c
  {
    c as int - '0' as int
  }

  /** Decimal digits of `n`, with no leading zero unless `n` is zero. */
  function NatText(n: nat): (s: string)
    ensures |s| >= 1 && AllDigits(s)
    ensures s[0] == '0' ==> s == "0"
    decreases n
  {
    if n < 10 then [DigitChar(n)] else NatText(n / 10) + [DigitChar(n % 10)]
  }

  /** The number a string of decimal digits denotes. */
  function NatValue(s: string): nat
    requires AllDigits(s)
    decreases |s|
  {
    if |s| == 0 then 0 else NatValue(s[..|s| - 1]) * 10 + DigitValue(s[|s| - 1])
  }

  lemma {:induction false} NatValueOfText(n: nat)
    ensures NatValue(NatText(n)) == n
    decreases n
  {
    if n >= 10 {
      var s := NatText(n);
      assert s[..|s| - 1] == NatText(n / 10);
      NatValueOfText(n / 10);
    }
  }

  /** `F2` of a non-negative amount of hundredths. */
  function UnsignedF2(a: nat): (s: string)
    ensures |s| >= 4 && AllDigits(s[..|s| - 3]) && s[|s| - 3] == '.'
    ensures IsDigit(s[|s| - 2]) && IsDigit(s[|s| - 1])
  {
    NatText(a / 100) + "." + [DigitChar(a % 100 / 10), DigitChar(a % 10)]
  }

  /** `F2` of a signed amount of hundredths: exactly one point, exactly two
      decimals after it, and a leading minus sign exactly for negative values. */
  function F2(h: int): (s: string)
    ensures |s| >= 4 && s[|s| - 3] == '.'
    ensures IsDigit(s[|s| - 2]) && IsDigit(s[|s| - 1])
    ensures forall i :: 0 <= i < |s| - 3 ==> s[i] != '.'
    ensures s[0] == '-' <==> h < 0
  {
    if h < 0 then "-" + UnsignedF2(-h) else UnsignedF2(h)
  }

  /** Reads `digits.dd` back into hundredths. */
  function ParseUnsignedF2(s: string): Option<nat>
  {
    if |s| < 4 || s[|s| - 3] != '.' || !AllDigits(s[..|s| - 3]) || !AllDigits(s[|s| - 2..]) then None
    else Some(NatValue(s[..|s| - 3]) * 100 + NatValue(s[|s| - 2..]))
  }

  /** Reads `[-]digits.dd` back into hundredths. */
  function ParseF2(s: string): Option<int>
  {
    if |s| > 0 && s[0] == '-' then
      match ParseUnsignedF2(s[1..])
      case Some(a) => Some(-(a as int))
      case None => None
    else
      match ParseUnsignedF2(s)
      case Some(a) => Some(a)
      case None => None
  }

  lemma UnsignedF2RoundTrip(a: nat)
    ensures ParseUnsignedF2(UnsignedF2(a)) == Some(a)
  {
    var s := UnsignedF2(a);
    assert s[..|s| - 3] == NatText(a / 100);
    NatValueOfText(a / 100);
    var tail := s[|s| - 2..];
    assert tail == [DigitChar(a % 100 / 10), DigitChar(a % 10)];
    assert tail[..1] == [tail[0]];
    assert tail[..1][..0] == [];
    assert NatValue(tail[..1]) == a % 100 / 10;
    assert NatValue(tail) == (a % 100 / 10) * 10 + a % 10;
  }

  /** Every rendered coordinate reads back as the value it renders. */
  lemma F2RoundTrip(h: int)
    ensures ParseF2(F2(h)) == Some(h)
  {
    if h < 0 {
      UnsignedF2RoundTrip(-h);
      assert F2(h)[1..] == UnsignedF2(-h);
    } else {
      UnsignedF2RoundTrip(h);
    }
  }

}

=== FILE: lines.dfy ===
/** Line layout shared by both exporters: indentation by depth, counting the
    leading blanks of a line, and the newline-terminated text that
    `StringBuilder.AppendLine` accumulates. */
module Lines {

  /** `n` blanks. */
  function Spaces(n: nat): (r: string)
    ensures |r| == n
    ensures forall i :: 0 <= i < n ==> r[i] == ' '
  {
    seq(n, _ => ' ')
  }

  /** The leading whitespace of a line written at `depth`: two blanks per level. */
  function Indent(depth: nat): string
  {
    Spaces(2 * depth)
  }

  /** The source writes `{ind}  X` and `{ind}    X`: two extra blanks are one
      more level of indentation. */
  lemma IndentStep(depth: nat)
    ensures Indent(depth) + "  " == Indent(depth + 1)
  {
    assert Indent(depth) + "  " == Spaces(2 * depth + 2);
  }

  /** The number of blanks a line starts with. */
  function LeadingSpaces(s: string): (k: nat)
    ensures k <= |s|
    ensures forall i :: 0 <= i < k ==> s[i] == ' '
    ensures k < |s| ==> s[k] != ' '
  {
    if |s| == 0 || s[0] != ' ' then 0 else 1 + LeadingSpaces(s[1..])
  }

  /** `text` written at `depth`. */
  function Indented(depth: nat, text: string): string
  {
    Indent(depth) + text
  }

  /** Blanks put in front of a text are counted, and when the text does not
      start with a blank, nothing more is. */
  lemma {:induction false} BlanksBefore(n: nat, text: string)
    ensures LeadingSpaces(Spaces(n) + text) == n + LeadingSpaces(text)
  {
    if n > 0 {
      assert (Spaces(n) + text)[1..] == Spaces(n - 1) + text;
      BlanksBefore(n - 1, text);
    } else {
      assert Spaces(n) + text == text;
    }
  }

  /** A text that does not start with a blank, written at `depth`, is
      indented exactly `2 * depth` columns. */
  lemma ColumnOf(depth: nat, text: string)
    requires text == [] || text[0] != ' '
    ensures LeadingSpaces(Indented(depth, text)) == 2 * depth
  {
    BlanksBefore(2 * depth, text);
  }

  /** Whatever the text, a line written at `depth` is indented at least
      `2 * depth` columns. */
  lemma ColumnAtLeast(depth: nat, text: string)
    ensures LeadingSpaces(Indented(depth, text)) >= 2 * depth
  {
    BlanksBefore(2 * depth, text);
  }

  const NewLine: char := '\n'

  /** The text `AppendLine` produces for a sequence of lines: each line
      followed by a newline. */
  function Text(lines: seq<string>): (r: string)
    ensures r == [] <==> |lines| == 0
    ensures |lines| > 0 ==> r[|r| - 1] == NewLine
  {
    if |lines| == 0 then [] else lines[0] + [NewLine] + Text(lines[1..])
  }

  /** Appending lines one call at a time builds the text of all of them. */
  lemma {:induction false} TextAppend(a: seq<string>, b: seq<string>)
    ensures Text(a + b) == Text(a) + Text(b)
    decreases |a|
  {
    if |a| == 0 {
      assert a + b == b;
    } else {
      assert (a + b)[1..] == a[1..] + b;
      TextAppend(a[1..], b);
    }
  }

  /** The position of the first newline of `s`, or `|s|` when there is none. */
  function IndexOfNewLine(s: string): (i: nat)
    ensures i <= |s|
    ensures forall j :: 0 <= j < i ==> s[j] != NewLine
    ensures i < |s| ==> s[i] == NewLine
  {
    if |s| == 0 || s[0] == NewLine then 0 else 1 + IndexOfNewLine(s[1..])
  }

  /** Cuts a text back into its lines; a last line without a newline is kept. */
  function SplitLines(t: string): seq<string>
    decreases |t|
  {
    if |t| == 0 then []
    else
      var i := IndexOfNewLine(t);
      if i == |t| then [t] else [t[..i]] + SplitLines(t[i + 1..])
  }

  predicate NoNewLines(lines: seq<string>)
  {
    forall i :: 0 <= i < |lines| ==> NewLine !in lines[i]
  }

  /** The document's lines can be read back from its text as long as no line
      contains a newline of its own. */
  lemma {:induction false} SplitText(lines: seq<string>)
    requires NoNewLines(lines)
    ensures SplitLines(Text(lines)) == lines
    decreases |lines|
  {
    if |lines| > 0 {
      var t := Text(lines);
      var l := lines[0];
      assert t == l + ([NewLine] + Text(lines[1..]));
      var i := IndexOfNewLine(t);
      assert t[|l|] == NewLine;
      assert forall j :: 0 <= j < |l| ==> t[j] == l[j];
      assert i == |l|;
      assert t[..i] == l;
      assert t[i + 1..] == Text(lines[1..]);
      SplitText(lines[1..]);
    }
  }

}

=== FILE: rendering.dfy ===
/** The text of the document: where each line starts, and how a reader
    finds the game-object headers again by their `- GameObject: ` mark. */
module Rendering {
  import opened Lines
  import opened Scene
  import opened Serializer
  import opened Traversal

  /** The column a line's text starts at: the object header at its node's
      indentation, `Transform:` and component headers one level deeper,
      vectors and field lines two levels deeper. */
  function Column(l: Line): nat
  {
    match l
    case ObjectHeader(d, _) => 2 * d
    case TransformHeader(d) => 2 * d + 2
    case ComponentHeader(d, _) => 2 * d + 2
    case VectorLine(d, _, _) => 2 * d + 4
    case FieldLine(d, _, _) => 2 * d + 4
  }

  /** A field line's name is identifier-like. */
  predicate NameOk(l: Line)
  {
    l.FieldLine? ==> IdentifierLike(l.name)
  }

  /** A line's text starts at least at its column, and exactly there unless
      it is a field line whose name starts with a blank. */
  lemma RenderColumn(l: Line)
    ensures LeadingSpaces(Render(l)) >= Column(l)
    ensures !(l.FieldLine? && l.name != [] && l.name[0] == ' ') ==> LeadingSpaces(Render(l)) == Column(l)
  {
    match l
    case ObjectHeader(d, name) => ObjectHeaderColumn(d, name);
    case TransformHeader(d) => TransformHeaderColumn(d);
    case ComponentHeader(d, typeName) => ComponentHeaderColumn(d, typeName);
    case VectorLine(d, k, v) => VectorLineColumn(d, k, v);
    case FieldLine(d, name, text) => FieldLineColumn(d, name, text);
  }

  lemma ObjectHeaderColumn(d: nat, name: string)
    ensures LeadingSpaces(Render(ObjectHeader(d, name))) == 2 * d
  {
    ColumnOf(d, HeaderMark + name);
  }

  lemma TransformHeaderColumn(d: nat)
    ensures LeadingSpaces(Render(TransformHeader(d))) == 2 * d + 2
  {
    ColumnOf(d + 1, "Transform:");
  }

  lemma ComponentHeaderColumn(d: nat, typeName: string)
    ensures LeadingSpaces(Render(ComponentHeader(d, typeName))) == 2 * d + 2
  {
    ColumnOf(d + 1, "Component: " + typeName);
  }

  lemma VectorLineColumn(d: nat, k: Vector, v: Vec3)
    ensures LeadingSpaces(Render(VectorLine(d, k, v))) == 2 * d + 4
  {
    ColumnOf(d + 2, Label(k) + VectorText(v));
  }

  /** A field line starts two levels in, and further only when its name
      itself starts with blanks. */
  lemma FieldLineColumn(d: nat, name: string, text: string)
    ensures LeadingSpaces(Render(FieldLine(d, name, text))) >= 2 * d + 4
    ensures name == [] || name[0] != ' ' ==> LeadingSpaces(Render(FieldLine(d, name, text))) == 2 * d + 4
  {
    ColumnAtLeast(d + 2, name + ": " + text);
    if name == [] || name[0] != ' ' {
      ColumnOf(d + 2, name + ": " + text);
    }
  }

  const HeaderMark: string := "- GameObject: "

  /** A text line is a game-object header when, after its indentation, it
      starts with the header mark. */
  predicate IsObjectHeader(line: string)
    decreases |line|
  {
    if line != [] && line[0] == ' ' then IsObjectHeader(line[1..]) else HeaderMark <= line
  }

  /** What a reader learns from a header line: its column and the name. */
  datatype Heading = Heading(column: nat, name: string)

  function HeadingOf(line: string): Heading
    requires IsObjectHeader(line)
    decreases |line|
  {
    if line != [] && line[0] == ' ' then
      var h := HeadingOf(line[1..]);
      Heading(h.column + 1, h.name)
    else
      Heading(0, line[|HeaderMark|..])
  }

  /** The headings of a document, read back from its text. */
  function Outline(doc: seq<string>): seq<Heading>
  {
    if |doc| == 0 then []
    else (if IsObjectHeader(doc[0]) then [HeadingOf(doc[0])] else []) + Outline(doc[1..])
  }

  /** Blanks in front of a text that does not start with one are skipped:
      the line is a header exactly when the text starts with the mark, and
      then its column is the number of blanks. */
  lemma {:induction false} HeaderAfterBlanks(n: nat, text: string)
    requires text == [] || text[0] != ' '
    ensures IsObjectHeader(Spaces(n) + text) <==> HeaderMark <= text
    ensures HeaderMark <= text ==> HeadingOf(Spaces(n) + text) == Heading(n, text[|HeaderMark|..])
  {
    if n > 0 {
      assert (Spaces(n) + text)[1..] == Spaces(n - 1) + text;
      HeaderAfterBlanks(n - 1, text);
    }
  }

  /** A line whose text starts with neither a blank nor `-` is no header. */
  lemma NotHeader(depth: nat, text: string)
    requires text != [] && text[0] != ' ' && text[0] != '-'
    ensures !IsObjectHeader(Indented(depth, text))
  {
    HeaderAfterBlanks(2 * depth, text);
  }

  /** Each kind of line, rendered: only the object header carries the mark,
      and reading it back gives the node's column and name. */
  lemma ObjectHeaderRecognized(d: nat, name: string)
    ensures IsObjectHeader(Render(ObjectHeader(d, name)))
    ensures HeadingOf(Render(ObjectHeader(d, name))) == Heading(2 * d, name)
  {
    HeaderAfterBlanks(2 * d, HeaderMark + name);
    assert (HeaderMark + name)[|HeaderMark|..] == name;
  }

  lemma TransformHeaderUnmarked(d: nat)
    ensures !IsObjectHeader(Render(TransformHeader(d)))
  {
    NotHeader(d + 1, "Transform:");
  }

  lemma ComponentHeaderUnmarked(d: nat, typeName: string)
    ensures !IsObjectHeader(Render(ComponentHeader(d, typeName)))
  {
    NotHeader(d + 1, "Component: " + typeName);
  }

  lemma VectorLineUnmarked(d: nat, k: Vector, v: Vec3)
    ensures !IsObjectHeader(Render(VectorLine(d, k, v)))
  {
    NotHeader(d + 2, Label(k) + VectorText(v));
  }

  /** A field line cannot pass for a header once its name is identifier-like;
      a name such as `- GameObject: x` would make it one. */
  lemma FieldLineUnmarked(d: nat, name: string, text: string)
    requires IdentifierLike(name)
    ensures !IsObjectHeader(Render(FieldLine(d, name, text)))
  {
    NotHeader(d + 2, name + ": " + text);
  }

  /** With identifier-like field names, a rendered line is recognised as a
      game-object header exactly when it is one, and the reader gets back
      its column and the object's name. */
  lemma RecognizeHeader(l: Line)
    requires NameOk(l)
    ensures IsObjectHeader(Render(l)) <==> l.ObjectHeader?
    ensures l.ObjectHeader? ==> HeadingOf(Render(l)) == Heading(2 * l.depth, l.name)
  {
    match l
    case ObjectHeader(d, name) => ObjectHeaderRecognized(d, name);
    case TransformHeader(d) => TransformHeaderUnmarked(d);
    case ComponentHeader(d, typeName) => ComponentHeaderUnmarked(d, typeName);
    case VectorLine(d, k, v) => VectorLineUnmarked(d, k, v);
    case FieldLine(d, name, text) => FieldLineUnmarked(d, name, text);
  }

  /** Headings the reader should find for a list of object headers. */
  function Headings(hs: seq<Line>): seq<Heading>
    requires forall i :: 0 <= i < |hs| ==> hs[i].ObjectHeader?
  {
    seq(|hs|, i requires 0 <= i < |hs| => Heading(2 * hs[i].depth, hs[i].name))
  }

  /** `text` reads back as the line `l`: as a header exactly when `l` is
      one, and then with its column and name. */
  predicate ReadsAs(text: string, l: Line)
  {
    (IsObjectHeader(text) <==> l.ObjectHeader?)
    && (IsObjectHeader(text) ==> HeadingOf(text) == Heading(2 * l.depth, l.name))
  }

  /** A document whose every line reads back as the corresponding line
      has as outline the headings of those lines' object headers. */
  lemma {:induction false} OutlineOf(doc: seq<string>, lines: seq<Line>)
    requires |doc| == |lines|
    requires forall i :: 0 <= i < |lines| ==> ReadsAs(doc[i], lines[i])
    ensures Outline(doc) == Headings(ObjectHeaders(lines))
    decreases |lines|
  {
    if |lines| > 0 {
      assert ReadsAs(doc[0], lines[0]);
      assert forall i :: 0 <= i < |lines[1..]| ==> doc[1..][i] == doc[i + 1] && lines[1..][i] == lines[i + 1];
      OutlineOf(doc[1..], lines[1..]);
      var hs := ObjectHeaders(lines[1..]);
      if lines[0].ObjectHeader? {
        assert ObjectHeaders(lines) == [lines[0]] + hs;
        assert Headings([lines[0]] + hs) == [Heading(2 * lines[0].depth, lines[0].name)] + Headings(hs);
      } else {
        assert ObjectHeaders(lines) == hs;
      }
    }
  }

  /** Reading the text of any lines whose field names are identifier-like
      finds exactly their object headers, in order, each at twice its depth. */
  lemma OutlineOfRendered(lines: seq<Line>)
    requires NamesOk(lines)
    ensures Outline(RenderAll(lines)) == Headings(ObjectHeaders(lines))
  {
    var doc := RenderAll(lines);
    forall i | 0 <= i < |lines|
      ensures ReadsAs(doc[i], lines[i])
    {
      RecognizeHeader(lines[i]);
    }
    OutlineOf(doc, lines);
  }

  /** Every field line among `lines` has an identifier-like name. */
  predicate NamesOk(lines: seq<Line>)
  {
    forall i :: 0 <= i < |lines| ==> NameOk(lines[i])
  }

  lemma NamesOkAppend(a: seq<Line>, b: seq<Line>)
    requires NamesOk(a) && NamesOk(b)
    ensures NamesOk(a + b)
  {
    assert forall i :: |a| <= i < |a + b| ==> (a + b)[i] == b[i - |a|];
  }

  /** The built-in projections use identifier-like names, and a script's
      field lines carry its own field names. */
  lemma ComponentNamesOk(e: Exporter, c: Component, depth: nat)
    requires FieldNamesOk(c)
    ensures NamesOk(ComponentLines(e, c, depth))
  {
    if c.Script? {
      ScriptProjection(e, c, depth);
    } else if e.Hierarchy? {
      HierarchyProjection(c, depth);
    }
  }

  lemma {:induction false} ComponentsNamesOk(e: Exporter, cs: seq<Component>, depth: nat)
    requires forall i :: 0 <= i < |cs| ==> FieldNamesOk(cs[i])
    ensures NamesOk(ComponentsLines(e, cs, depth))
    decreases |cs|
  {
    if |cs| > 0 {
      ComponentNamesOk(e, cs[0], depth);
      assert forall i :: 0 <= i < |cs[1..]| ==> cs[1..][i] == cs[i + 1];
      ComponentsNamesOk(e, cs[1..], depth);
      NamesOkAppend(ComponentLines(e, cs[0], depth), ComponentsLines(e, cs[1..], depth));
    }
  }

  lemma OwnNamesOk(e: Exporter, n: Node, depth: nat)
    requires OwnFieldNamesOk(n)
    ensures NamesOk(OwnLines(e, n, depth))
  {
    var head := [ObjectHeader(depth, n.name)] + TransformLines(n, depth);
    assert NamesOk(head);
    ComponentsNamesOk(e, n.components, depth);
    NamesOkAppend(head, ComponentsLines(e, n.components, depth));
  }

  lemma {:induction false} RecordsNamesOk(e: Exporter, vs: seq<Visit>)
    requires forall i :: 0 <= i < |vs| ==> OwnFieldNamesOk(vs[i].node)
    ensures NamesOk(Records(e, vs))
    decreases |vs|
  {
    if |vs| > 0 {
      OwnNamesOk(e, vs[0].node, vs[0].depth);
      assert forall i :: 0 <= i < |vs[1..]| ==> vs[1..][i] == vs[i + 1];
      RecordsNamesOk(e, vs[1..]);
      NamesOkAppend(OwnLines(e, vs[0].node, vs[0].depth), Records(e, vs[1..]));
    }
  }

  /** In a well-formed tree every field line has an identifier-like name. */
  lemma BlockNamesOk(e: Exporter, n: Node, depth: nat)
    requires WellFormed(n)
    ensures NamesOk(Block(e, n, depth))
  {
    BlockIsPreOrder(e, n, depth);
    PreOrderWellFormed(n, depth);
    RecordsNamesOk(e, PreOrder(n, depth));
  }

  /** Reading the headers back from the text of a well-formed tree gives its
      nodes in depth-first pre-order, each at twice its depth and with its
      name: as many headers as nodes, in child order at every level. */
  lemma DocumentOutline(e: Exporter, n: Node, depth: nat)
    requires WellFormed(n)
    ensures |Outline(Document(e, n, depth))| == Size(n)
    ensures forall i :: 0 <= i < Size(n) ==>
      Outline(Document(e, n, depth))[i] == Heading(2 * PreOrder(n, depth)[i].depth, PreOrder(n, depth)[i].node.name)
  {
    BlockNamesOk(e, n, depth);
    OutlineOfRendered(Block(e, n, depth));
    BlockHeaders(e, n, depth);
  }

  /** Indentation is set by depth: no line of a tree's text is indented less
      than its root header, which sits at exactly twice the depth; with
      identifier-like field names every line starts at its column. */
  lemma DocumentColumns(e: Exporter, n: Node, depth: nat)
    ensures |Document(e, n, depth)| == |Block(e, n, depth)|
    ensures LeadingSpaces(Document(e, n, depth)[0]) == 2 * depth
    ensures forall i :: 0 <= i < |Document(e, n, depth)| ==> LeadingSpaces(Document(e, n, depth)[i]) >= 2 * depth
    ensures WellFormed(n) ==> forall i :: 0 <= i < |Document(e, n, depth)| ==>
      LeadingSpaces(Document(e, n, depth)[i]) == Column(Block(e, n, depth)[i])
  {
    var b := Block(e, n, depth);
    var doc := Document(e, n, depth);
    BlockDepths(e, n, depth);
    forall i | 0 <= i < |doc|
      ensures LeadingSpaces(doc[i]) >= 2 * depth
      ensures WellFormed(n) ==> LeadingSpaces(doc[i]) == Column(b[i])
    {
      RenderColumn(b[i]);
      if WellFormed(n) {
        BlockNamesOk(e, n, depth);
      }
    }
    RenderColumn(b[0]);
  }

  // Each kind of line as the source writes it: `{ind}` for the node's
  // indentation, then two more blanks for the `Transform:` and component
  // headers, four more for the vectors and fields.

  /** The header's format string `{ind}- GameObject: {obj.name}` as such:
      unlike the other kinds it has no extra blanks to regroup. */
  lemma ObjectHeaderText(d: nat, name: string)
    ensures Render(ObjectHeader(d, name)) == Indent(d) + "- GameObject: " + name
  {
  }

  lemma TransformHeaderText(d: nat)
    ensures Render(TransformHeader(d)) == Indent(d) + "  " + "Transform:"
  {
    IndentStep(d);
  }

  lemma VectorLineText(d: nat, k: Vector, v: Vec3)
    ensures Render(VectorLine(d, k, v)) == Indent(d) + "    " + Label(k) + VectorText(v)
  {
    var t := Label(k) + VectorText(v);
    IndentStep(d);
    IndentStep(d + 1);
    assert Indent(d) + "    " == Indent(d) + "  " + "  ";
    assert Indent(d) + "    " + Label(k) + VectorText(v) == Indent(d) + "    " + t;
  }

  lemma ComponentHeaderText(d: nat, typeName: string)
    ensures Render(ComponentHeader(d, typeName)) == Indent(d) + "  " + "Component: " + typeName
  {
    IndentStep(d);
  }

  lemma FieldLineText(d: nat, name: string, text: string)
    ensures Render(FieldLine(d, name, text)) == Indent(d) + "    " + name + ": " + text
  {
    IndentStep(d);
    IndentStep(d + 1);
    assert Indent(d) + "    " == Indent(d) + "  " + "  ";
  }

  /** A block opens with the object header and the four transform lines. */
  lemma BlockStart(e: Exporter, n: Node, depth: nat)
    ensures |Block(e, n, depth)| >= 5
    ensures Block(e, n, depth)[..5] ==
      [ ObjectHeader(depth, n.name), TransformHeader(depth),
        VectorLine(depth, Position, n.localPosition),
        VectorLine(depth, Rotation, n.localEulerAngles),
        VectorLine(depth, Scale, n.localScale) ]
  {
    BlockDepths(e, n, depth);
    var own := OwnLines(e, n, depth);
    assert own[..5] == [ObjectHeader(depth, n.name)] + TransformLines(n, depth);
  }

  /** The text of a block opens with the object header at the node's
      indentation, then `Transform:` and the position, rotation and scale
      lines, written two and four blanks further in, in that order. */
  lemma DocumentStart(e: Exporter, n: Node, depth: nat)
    ensures |Document(e, n, depth)| >= 5
    ensures Document(e, n, depth)[0] == Indent(depth) + "- GameObject: " + n.name
    ensures Document(e, n, depth)[1] == Indent(depth) + "  " + "Transform:"
    ensures Document(e, n, depth)[2] == Indent(depth) + "    " + Label(Position) + VectorText(n.localPosition)
    ensures Document(e, n, depth)[3] == Indent(depth) + "    " + Label(Rotation) + VectorText(n.localEulerAngles)
    ensures Document(e, n, depth)[4] == Indent(depth) + "    " + Label(Scale) + VectorText(n.localScale)
  {
    var b := Block(e, n, depth);
    BlockStart(e, n, depth);
    assert b[0] == b[..5][0] && b[1] == b[..5][1] && b[2] == b[..5][2] && b[3] == b[..5][3] && b[4] == b[..5][4];
    ObjectHeaderText(depth, n.name);
    TransformHeaderText(depth);
    VectorLineText(depth, Position, n.localPosition);
    VectorLineText(depth, Rotation, n.localEulerAngles);
    VectorLineText(depth, Scale, n.localScale);
  }

}

=== FILE: scene.dfy ===
/** The tree the exporters read: game objects with a local transform, an
    ordered component list and ordered children. */
module Scene {
  import opened Wrappers

  /** A local position, Euler rotation or scale with finite coordinates. Each
      coordinate is the whole number of hundredths that `F2` rounds the float
      to. */
  datatype Vec3 = Vec3(x: int, y: int, z: int)

  /** A public instance field of a script, as reflection reports it: its
      declared name and the text of its value, `None` when the value is null. */
  datatype Field = Field(name: string, value: Option<string>)

  /** One entry of `GetComponents<Component>()`. Numbers, enums and booleans
      of the built-in kinds are kept as the text their `ToString()` gives. */
  datatype Component =
    | Null
      /** `subclass` is `None` for the exact `Transform` type and the type
          name of a subclass (`RectTransform`) otherwise. */
    | Transform(subclass: Option<string>)
    | Camera(fieldOfView: string, clearFlags: string)
    | Light(lightType: string, intensity: string)
      /** Colliders are always a concrete subtype such as `BoxCollider`. */
    | Collider(typeName: string, isTrigger: string, enabled: string)
    | Rigidbody(mass: string, useGravity: string)
      /** A `MonoBehaviour` subclass with its public instance fields in
          reflection order. */
    | Script(typeName: string, fields: seq<Field>)
      /** Any other component type: not one of the above, not a script. */
    | OtherBuiltin(typeName: string)

  /** `type.Name` of a present component. */
  function TypeName(c: Component): string
    requires !c.Null?
  {
    match c
    case Transform(subclass) => if subclass.Some? then subclass.value else "Transform"
    case Camera(_, _) => "Camera"
    case Light(_, _) => "Light"
    case Collider(typeName, _, _) => typeName
    case Rigidbody(_, _) => "Rigidbody"
    case Script(typeName, _) => typeName
    case OtherBuiltin(typeName) => typeName
  }

  datatype Node = Node(
    name: string,
    localPosition: Vec3,
    localEulerAngles: Vec3,
    localScale: Vec3,
    components: seq<Component>,
    children: seq<Node>)

  /** Number of game objects in a tree. */
  function Size(n: Node): nat
    decreases n
  {
    1 + ForestSize(n.children)
  }

  function ForestSize(ns: seq<Node>): nat
    decreases ns
  {
    if |ns| == 0 then 0 else Size(ns[0]) + ForestSize(ns[1..])
  }

  /** A game object together with its depth below the exported root. */
  datatype Visit = Visit(node: Node, depth: nat)

  /** Depth-first pre-order walk: a node, then the walks of its children in
      child order, one level deeper. */
  function PreOrder(n: Node, depth: nat): (vs: seq<Visit>)
    ensures |vs| == Size(n)
    ensures vs[0] == Visit(n, depth)
    ensures forall i :: 0 <= i < |vs| ==> vs[i].depth >= depth
    ensures forall i :: 1 <= i < |vs| ==> vs[i].depth > depth
    decreases n
  {
    [Visit(n, depth)] + ForestPreOrder(n.children, depth + 1)
  }

  function ForestPreOrder(ns: seq<Node>, depth: nat): (vs: seq<Visit>)
    ensures |vs| == ForestSize(ns)
    ensures forall i :: 0 <= i < |vs| ==> vs[i].depth >= depth
    decreases ns
  {
    if |ns| == 0 then [] else PreOrder(ns[0], depth) + ForestPreOrder(ns[1..], depth)
  }

  /** What every public field name satisfies, being a C# identifier: it is not
      empty and starts with neither a blank nor a dash. */
  predicate IdentifierLike(s: string)
  {
    |s| > 0 && s[0] != ' ' && s[0] != '-'
  }

  predicate FieldNamesOk(c: Component)
  {
    c.Script? ==> forall i :: 0 <= i < |c.fields| ==> IdentifierLike(c.fields[i].name)
  }

  /** The components of this node (not its descendants) have identifier-like
      field names. */
  predicate OwnFieldNamesOk(n: Node)
  {
    forall i :: 0 <= i < |n.components| ==> FieldNamesOk(n.components[i])
  }

  /** Every node of the tree has identifier-like field names. */
  predicate WellFormed(n: Node)
    decreases n
  {
    OwnFieldNamesOk(n) && forall i :: 0 <= i < |n.children| ==> WellFormed(n.children[i])
  }

  predicate ForestWellFormed(ns: seq<Node>)
  {
    forall i :: 0 <= i < |ns| ==> WellFormed(ns[i])
  }

  /** Each node the walk of a well-formed tree visits has identifier-like
      field names. */
  lemma {:induction false} PreOrderWellFormed(n: Node, depth: nat)
    requires WellFormed(n)
    ensures forall i :: 0 <= i < |PreOrder(n, depth)| ==> OwnFieldNamesOk(PreOrder(n, depth)[i].node)
    decreases n
  {
    ForestPreOrderWellFormed(n.children, depth + 1);
  }

  lemma {:induction false} ForestPreOrderWellFormed(ns: seq<Node>, depth: nat)
    requires ForestWellFormed(ns)
    ensures forall i :: 0 <= i < |ForestPreOrder(ns, depth)| ==> OwnFieldNamesOk(ForestPreOrder(ns, depth)[i].node)
    decreases ns
  {
    if |ns| > 0 {
      PreOrderWellFormed(ns[0], depth);
      ForestPreOrderWellFormed(ns[1..], depth);
      var vs := ForestPreOrder(ns, depth);
      var a := PreOrder(ns[0], depth);
      var b := ForestPreOrder(ns[1..], depth);
      assert vs == a + b;
      forall i | 0 <= i < |vs|
        ensures OwnFieldNamesOk(vs[i].node)
      {
        if i >= |a| {
          assert vs[i] == b[i - |a|];
        }
      }
    }
  }

}

=== FILE: serializer.dfy ===
/** `AppendGameObjectYAML`, the recursive serializer both exporters share.
    The two copies differ in which components they skip and in whether the
    built-in kinds get field lines; `Exporter` says which copy runs.
    Every `AppendLine` of the source is one `Line` value, and `Render` gives
    the exact text that call appends. */
module Serializer {
  import opened Wrappers
  import opened Lines
  import opened FixedPoint
  import opened Scene

  datatype Exporter =
    | Hierarchy  // HierarchyYamlExporter: the scene export
    | Prefab     // PrefabYamlExporter: the selected prefab export

  datatype Vector = Position | Rotation | Scale

  /** One appended line. `depth` is the `indent` argument of the call that
      appends it, that is, the depth of the game object it belongs to. */
  datatype Line =
    | ObjectHeader(depth: nat, name: string)
    | TransformHeader(depth: nat)
    | VectorLine(depth: nat, vector: Vector, value: Vec3)
    | ComponentHeader(depth: nat, typeName: string)
    | FieldLine(depth: nat, name: string, text: string)

  function Label(k: Vector): string
  {
    match k
    case Position => "Position: "
    case Rotation => "Rotation: "
    case Scale => "Scale:    "
  }

  function VectorText(v: Vec3): string
  {
    "[" + Coordinates([v.x, v.y, v.z]) + "]"
  }

  /** The coordinates, each written with `F2`, separated by `, `. */
  function Coordinates(cs: seq<int>): string
    decreases |cs|
  {
    if |cs| == 0 then "" else if |cs| == 1 then F2(cs[0]) else F2(cs[0]) + ", " + Coordinates(cs[1..])
  }

  /** The text of a line. The source writes `{ind}  X` and `{ind}    X`;
      by `Lines.IndentStep` that is `X` one and two levels deeper. */
  function Render(l: Line): string
  {
    match l
    case ObjectHeader(d, name) => Indented(d, "- GameObject: " + name)
    case TransformHeader(d) => Indented(d + 1, "Transform:")
    case VectorLine(d, k, v) => Indented(d + 2, Label(k) + VectorText(v))
    case ComponentHeader(d, typeName) => Indented(d + 1, "Component: " + typeName)
    case FieldLine(d, name, text) => Indented(d + 2, name + ": " + text)
  }

  function RenderAll(lines: seq<Line>): seq<string>
  {
    seq(|lines|, i requires 0 <= i < |lines| => Render(lines[i]))
  }

  /** The value's text, or `null` when the value is absent. */
  function ValueText(v: Option<string>): string
  {
    match v
    case None => "null"
    case Some(s) => s
  }

  /** The `continue` of the component loop. The scene export skips only the
      exact `Transform` type; the prefab export skips every `Transform`. */
  predicate Skipped(e: Exporter, c: Component)
  {
    match c
    case Null => true
    case Transform(subclass) => e.Prefab? || subclass.None?
    case _ => false
  }

  /** The fixed properties the scene export prints for built-in kinds. */
  function BuiltinFieldLines(c: Component, depth: nat): seq<Line>
  {
    match c
    case Camera(fov, flags) => [FieldLine(depth, "FOV", fov), FieldLine(depth, "ClearFlags", flags)]
    case Light(kind, intensity) => [FieldLine(depth, "Type", kind), FieldLine(depth, "Intensity", intensity)]
    case Collider(_, isTrigger, enabled) => [FieldLine(depth, "IsTrigger", isTrigger), FieldLine(depth, "Enabled", enabled)]
    case Rigidbody(mass, useGravity) => [FieldLine(depth, "Mass", mass), FieldLine(depth, "UseGravity", useGravity)]
    case _ => []
  }

  /** One line per public instance field, in reflection order: no field
      left out, none added, an absent value written `null`. */
  function ScriptFieldLines(fields: seq<Field>, depth: nat): (r: seq<Line>)
    ensures |r| == |fields|
    ensures forall i :: 0 <= i < |fields| ==>
      r[i] == FieldLine(depth, fields[i].name, if fields[i].value.None? then "null" else fields[i].value.value)
  {
    if |fields| == 0 then []
    else [FieldLine(depth, fields[0].name, ValueText(fields[0].value))] + ScriptFieldLines(fields[1..], depth)
  }

  /** The lines under a component header: the built-in projection (scene
      export only), then the public fields when the component is a script. */
  function FieldLines(e: Exporter, c: Component, depth: nat): seq<Line>
  {
    (if e.Hierarchy? then BuiltinFieldLines(c, depth) else [])
    + (if c.Script? then ScriptFieldLines(c.fields, depth) else [])
  }

  /** The lines one component contributes: nothing when it is skipped,
      otherwise its header and its field lines. */
  function ComponentLines(e: Exporter, c: Component, depth: nat): seq<Line>
  {
    if Skipped(e, c) then [] else [ComponentHeader(depth, TypeName(c))] + FieldLines(e, c, depth)
  }

  /** Exactly the null entries and the exact `Transform` (scene export) or
      every `Transform` (prefab export) produce no lines; every other
      component starts with its `Component: <type name>` header. */
  lemma ComponentSkip(e: Exporter, c: Component, depth: nat)
    ensures ComponentLines(e, c, depth) == [] <==> c.Null? || (c.Transform? && (e.Prefab? || c.subclass.None?))
    ensures ComponentLines(e, c, depth) != [] ==> ComponentLines(e, c, depth)[0] == ComponentHeader(depth, TypeName(c))
  {
  }

  /** The scene export's projection of the built-in kinds, field by field. */
  lemma HierarchyProjection(c: Component, depth: nat)
    ensures c.Camera? ==>
      ComponentLines(Hierarchy, c, depth) ==
        [ComponentHeader(depth, "Camera"), FieldLine(depth, "FOV", c.fieldOfView), FieldLine(depth, "ClearFlags", c.clearFlags)]
    ensures c.Light? ==>
      ComponentLines(Hierarchy, c, depth) ==
        [ComponentHeader(depth, "Light"), FieldLine(depth, "Type", c.lightType), FieldLine(depth, "Intensity", c.intensity)]
    ensures c.Collider? ==>
      ComponentLines(Hierarchy, c, depth) ==
        [ComponentHeader(depth, c.typeName), FieldLine(depth, "IsTrigger", c.isTrigger), FieldLine(depth, "Enabled", c.enabled)]
    ensures c.Rigidbody? ==>
      ComponentLines(Hierarchy, c, depth) ==
        [ComponentHeader(depth, "Rigidbody"), FieldLine(depth, "Mass", c.mass), FieldLine(depth, "UseGravity", c.useGravity)]
    ensures c.Transform? && c.subclass.Some? ==> ComponentLines(Hierarchy, c, depth) == [ComponentHeader(depth, c.subclass.value)]
    ensures c.OtherBuiltin? ==> ComponentLines(Hierarchy, c, depth) == [ComponentHeader(depth, c.typeName)]
  {
  }

  /** The prefab export gives every built-in kind its header line only. */
  lemma PrefabProjection(c: Component, depth: nat)
    requires c.Camera? || c.Light? || c.Collider? || c.Rigidbody? || c.OtherBuiltin?
    ensures ComponentLines(Prefab, c, depth) == [ComponentHeader(depth, TypeName(c))]
  {
  }

  /** A script gives its header, then exactly one line per public field in
      field order, with `null` for an absent value, under both exporters. */
  lemma ScriptProjection(e: Exporter, c: Component, depth: nat)
    requires c.Script?
    ensures |ComponentLines(e, c, depth)| == 1 + |c.fields|
    ensures ComponentLines(e, c, depth)[0] == ComponentHeader(depth, c.typeName)
    ensures forall i :: 0 <= i < |c.fields| ==>
      ComponentLines(e, c, depth)[1 + i] ==
        FieldLine(depth, c.fields[i].name, if c.fields[i].value.None? then "null" else c.fields[i].value.value)
  {
    var fl := ScriptFieldLines(c.fields, depth);
    var r := ComponentLines(e, c, depth);
    assert (if e.Hierarchy? then BuiltinFieldLines(c, depth) else []) == [];
    assert r == [ComponentHeader(depth, c.typeName)] + fl;
  }


  /** The property names the scene export prints for the built-in kinds. */
  const BuiltinNames: set<string> :=
    {"FOV", "ClearFlags", "Type", "Intensity", "IsTrigger", "Enabled", "Mass", "UseGravity"}

  /** The only names on a component's field lines are the scene export's
      fixed property names and the script's own field names. */
  lemma ComponentFieldNames(e: Exporter, c: Component, depth: nat)
    ensures forall l :: l in ComponentLines(e, c, depth) && l.FieldLine? ==>
      (e.Hierarchy? && !c.Script? && l.name in BuiltinNames) ||
      (c.Script? && exists f :: f in c.fields && f.name == l.name)
  {
    var r := ComponentLines(e, c, depth);
    if c.Script? {
      ScriptProjection(e, c, depth);
      forall l | l in r && l.FieldLine?
        ensures exists f :: f in c.fields && f.name == l.name
      {
        var k :| 0 <= k < |r| && r[k] == l;
        assert k != 0;
        assert c.fields[k - 1] in c.fields && c.fields[k - 1].name == l.name;
      }
    } else if e.Hierarchy? && !c.Null? && !c.Transform? {
      HierarchyProjection(c, depth);
    } else if !c.Null? && !c.Transform? {
      PrefabProjection(c, depth);
    }
  }

  /** The component loop: each component's lines in component order. */
  function ComponentsLines(e: Exporter, cs: seq<Component>, depth: nat): seq<Line>
  {
    if |cs| == 0 then [] else ComponentLines(e, cs[0], depth) + ComponentsLines(e, cs[1..], depth)
  }

  function TransformLines(n: Node, depth: nat): seq<Line>
  {
    [ TransformHeader(depth),
      VectorLine(depth, Position, n.localPosition),
      VectorLine(depth, Rotation, n.localEulerAngles),
      VectorLine(depth, Scale, n.localScale) ]
  }

  /** The lines of a game object itself: header, transform block, components. */
  function OwnLines(e: Exporter, n: Node, depth: nat): seq<Line>
  {
    [ObjectHeader(depth, n.name)] + TransformLines(n, depth) + ComponentsLines(e, n.components, depth)
  }

  /** `AppendGameObjectYAML(obj, depth, sb)`: the object's own lines, then
      the blocks of its children one level deeper, in child order. */
  function Block(e: Exporter, n: Node, depth: nat): seq<Line>
    decreases n
  {
    OwnLines(e, n, depth) + Blocks(e, n.children, depth + 1)
  }

  /** The blocks of `ns`, each at `depth`, one after another. */
  function Blocks(e: Exporter, ns: seq<Node>, depth: nat): seq<Line>
    decreases ns
  {
    if |ns| == 0 then [] else Block(e, ns[0], depth) + Blocks(e, ns[1..], depth)
  }

  /** The text lines one `AppendGameObjectYAML` call appends. */
  function Document(e: Exporter, n: Node, depth: nat): seq<string>
  {
    RenderAll(Block(e, n, depth))
  }

}

=== FILE: traversal.dfy ===
/** What the recursion of `AppendGameObjectYAML` amounts to: the block of a
    tree is the record of each node (header, transform block, components)
    listed in depth-first pre-order; a node's own lines come before any line
    of its descendants; there is one object header per node and one
    component header per emitted component, in order. */
module Traversal {
  import opened Scene
  import opened Serializer

  /** The own lines of each visited node, at its depth, one after another. */
  function Records(e: Exporter, vs: seq<Visit>): seq<Line>
  {
    if |vs| == 0 then [] else OwnLines(e, vs[0].node, vs[0].depth) + Records(e, vs[1..])
  }

  lemma {:induction false} RecordsAppend(e: Exporter, a: seq<Visit>, b: seq<Visit>)
    ensures Records(e, a + b) == Records(e, a) + Records(e, b)
    decreases |a|
  {
    if |a| == 0 {
      assert a + b == b;
    } else {
      assert (a + b)[0] == a[0];
      assert (a + b)[1..] == a[1..] + b;
      RecordsAppend(e, a[1..], b);
    }
  }

  /** Serializing a longer list of roots appends to what the shorter list
      produced. */
  lemma {:induction false} BlocksAppend(e: Exporter, a: seq<Node>, b: seq<Node>, depth: nat)
    ensures Blocks(e, a + b, depth) == Blocks(e, a, depth) + Blocks(e, b, depth)
    decreases |a|
  {
    if |a| == 0 {
      assert a + b == b;
    } else {
      assert (a + b)[0] == a[0];
      assert (a + b)[1..] == a[1..] + b;
      BlocksAppend(e, a[1..], b, depth);
    }
  }

  /** The block of a tree is the records of its pre-order walk: each node's
      header, transform and component lines, then its children's blocks in
      child order one level deeper. */
  lemma {:induction false} BlockIsPreOrder(e: Exporter, n: Node, depth: nat)
    ensures Block(e, n, depth) == Records(e, PreOrder(n, depth))
    decreases n
  {
    var rest := ForestPreOrder(n.children, depth + 1);
    BlocksArePreOrder(e, n.children, depth + 1);
    RecordsAppend(e, [Visit(n, depth)], rest);
    assert Records(e, [Visit(n, depth)]) == OwnLines(e, n, depth) + Records(e, []);
  }

  lemma {:induction false} BlocksArePreOrder(e: Exporter, ns: seq<Node>, depth: nat)
    ensures Blocks(e, ns, depth) == Records(e, ForestPreOrder(ns, depth))
    decreases ns
  {
    if |ns| > 0 {
      BlockIsPreOrder(e, ns[0], depth);
      BlocksArePreOrder(e, ns[1..], depth);
      RecordsAppend(e, PreOrder(ns[0], depth), ForestPreOrder(ns[1..], depth));
    }
  }

  /** Every line of `lines` belongs to the node at `depth`. */
  predicate AtDepth(lines: seq<Line>, depth: nat)
  {
    forall i :: 0 <= i < |lines| ==> lines[i].depth == depth
  }

  lemma AtDepthAppend(a: seq<Line>, b: seq<Line>, depth: nat)
    requires AtDepth(a, depth) && AtDepth(b, depth)
    ensures AtDepth(a + b, depth)
  {
    assert forall i :: |a| <= i < |a + b| ==> (a + b)[i] == b[i - |a|];
  }

  /** Every line one component contributes belongs to the node at `depth`. */
  lemma ComponentDepth(e: Exporter, c: Component, depth: nat)
    ensures AtDepth(ComponentLines(e, c, depth), depth)
  {
    if c.Script? {
      ScriptProjection(e, c, depth);
    }
  }

  /** Every line of the component loop belongs to the node at `depth`. */
  lemma {:induction false} ComponentsDepth(e: Exporter, cs: seq<Component>, depth: nat)
    ensures AtDepth(ComponentsLines(e, cs, depth), depth)
    decreases |cs|
  {
    if |cs| > 0 {
      var a := ComponentLines(e, cs[0], depth);
      var b := ComponentsLines(e, cs[1..], depth);
      ComponentDepth(e, cs[0], depth);
      ComponentsDepth(e, cs[1..], depth);
      AtDepthAppend(a, b, depth);
    }
  }

  /** A node's own lines are all at its depth, and every line of its
      descendants is deeper: the component lines come before any child
      block, and nothing of the subtree is shallower than its root. */
  lemma {:induction false} BlockDepths(e: Exporter, n: Node, depth: nat)
    ensures |Block(e, n, depth)| >= |OwnLines(e, n, depth)|
    ensures Block(e, n, depth)[..|OwnLines(e, n, depth)|] == OwnLines(e, n, depth)
    ensures forall i :: 0 <= i < |OwnLines(e, n, depth)| ==> Block(e, n, depth)[i].depth == depth
    ensures forall i :: |OwnLines(e, n, depth)| <= i < |Block(e, n, depth)| ==> Block(e, n, depth)[i].depth > depth
    decreases n
  {
    var own := OwnLines(e, n, depth);
    var kids := Blocks(e, n.children, depth + 1);
    ComponentsDepth(e, n.components, depth);
    var cl := ComponentsLines(e, n.components, depth);
    assert forall i :: 5 <= i < |own| ==> own[i] == cl[i - 5];
    BlocksDepths(e, n.children, depth + 1);
    assert forall i :: |own| <= i < |own + kids| ==> (own + kids)[i] == kids[i - |own|];
  }

  lemma {:induction false} BlocksDepths(e: Exporter, ns: seq<Node>, depth: nat)
    ensures forall i :: 0 <= i < |Blocks(e, ns, depth)| ==> Blocks(e, ns, depth)[i].depth >= depth
    decreases ns
  {
    if |ns| > 0 {
      var a := Block(e, ns[0], depth);
      var b := Blocks(e, ns[1..], depth);
      BlockDepths(e, ns[0], depth);
      BlocksDepths(e, ns[1..], depth);
      assert forall i :: |a| <= i < |a + b| ==> (a + b)[i] == b[i - |a|];
    }
  }

  /** The object headers among `lines`, in order. */
  function ObjectHeaders(lines: seq<Line>): (hs: seq<Line>)
    ensures |hs| <= |lines|
    ensures forall i :: 0 <= i < |hs| ==> hs[i].ObjectHeader?
  {
    if |lines| == 0 then []
    else (if lines[0].ObjectHeader? then [lines[0]] else []) + ObjectHeaders(lines[1..])
  }

  lemma {:induction false} ObjectHeadersAppend(a: seq<Line>, b: seq<Line>)
    ensures ObjectHeaders(a + b) == ObjectHeaders(a) + ObjectHeaders(b)
    decreases |a|
  {
    if |a| == 0 {
      assert a + b == b;
    } else {
      assert (a + b)[0] == a[0];
      assert (a + b)[1..] == a[1..] + b;
      ObjectHeadersAppend(a[1..], b);
    }
  }

  /** The header each visit calls for. */
  function HeadersOf(vs: seq<Visit>): seq<Line>
  {
    seq(|vs|, i requires 0 <= i < |vs| => ObjectHeader(vs[i].depth, vs[i].node.name))
  }

  lemma {:induction false} NoObjectHeaders(lines: seq<Line>)
    requires forall i :: 0 <= i < |lines| ==> !lines[i].ObjectHeader?
    ensures ObjectHeaders(lines) == []
    decreases |lines|
  {
    if |lines| > 0 {
      NoObjectHeaders(lines[1..]);
    }
  }

  lemma ComponentsNoObjectHeader(e: Exporter, cs: seq<Component>, depth: nat)
    ensures ObjectHeaders(ComponentsLines(e, cs, depth)) == []
    decreases |cs|
  {
    if |cs| > 0 {
      var a := ComponentLines(e, cs[0], depth);
      if cs[0].Script? {
        ScriptProjection(e, cs[0], depth);
      }
      NoObjectHeaders(a);
      ComponentsNoObjectHeader(e, cs[1..], depth);
      ObjectHeadersAppend(a, ComponentsLines(e, cs[1..], depth));
    }
  }

  /** A node's own lines hold exactly one object header, its own. */
  lemma OwnHeader(e: Exporter, n: Node, depth: nat)
    ensures ObjectHeaders(OwnLines(e, n, depth)) == [ObjectHeader(depth, n.name)]
  {
    var t := TransformLines(n, depth);
    var cl := ComponentsLines(e, n.components, depth);
    ComponentsNoObjectHeader(e, n.components, depth);
    NoObjectHeaders(t);
    ObjectHeadersAppend([ObjectHeader(depth, n.name)] + t, cl);
    ObjectHeadersAppend([ObjectHeader(depth, n.name)], t);
  }

  lemma {:induction false} RecordsHeaders(e: Exporter, vs: seq<Visit>)
    ensures ObjectHeaders(Records(e, vs)) == HeadersOf(vs)
    decreases |vs|
  {
    if |vs| > 0 {
      OwnHeader(e, vs[0].node, vs[0].depth);
      RecordsHeaders(e, vs[1..]);
      ObjectHeadersAppend(OwnLines(e, vs[0].node, vs[0].depth), Records(e, vs[1..]));
      assert HeadersOf(vs) == [ObjectHeader(vs[0].depth, vs[0].node.name)] + HeadersOf(vs[1..]);
    }
  }

  /** The object headers of a block are those of the pre-order walk, with the
      depth of each node: one per node of the tree, in pre-order. */
  lemma BlockHeaders(e: Exporter, n: Node, depth: nat)
    ensures ObjectHeaders(Block(e, n, depth)) == HeadersOf(PreOrder(n, depth))
    ensures |ObjectHeaders(Block(e, n, depth))| == Size(n)
  {
    BlockIsPreOrder(e, n, depth);
    RecordsHeaders(e, PreOrder(n, depth));
  }

  /** The type names of the component headers among `lines`, in order. */
  function ComponentNames(lines: seq<Line>): seq<string>
  {
    if |lines| == 0 then []
    else (if lines[0].ComponentHeader? then [lines[0].typeName] else []) + ComponentNames(lines[1..])
  }

  lemma {:induction false} ComponentNamesAppend(a: seq<Line>, b: seq<Line>)
    ensures ComponentNames(a + b) == ComponentNames(a) + ComponentNames(b)
    decreases |a|
  {
    if |a| == 0 {
      assert a + b == b;
    } else {
      assert (a + b)[0] == a[0];
      assert (a + b)[1..] == a[1..] + b;
      ComponentNamesAppend(a[1..], b);
    }
  }

  /** The type names of the components an exporter does not skip, in
      component order. */
  function EmittedTypeNames(e: Exporter, cs: seq<Component>): seq<string>
  {
    if |cs| == 0 then []
    else (if Skipped(e, cs[0]) then [] else [TypeName(cs[0])]) + EmittedTypeNames(e, cs[1..])
  }

  lemma {:induction false} NoComponentNames(lines: seq<Line>)
    requires forall i :: 0 <= i < |lines| ==> !lines[i].ComponentHeader?
    ensures ComponentNames(lines) == []
    decreases |lines|
  {
    if |lines| > 0 {
      NoComponentNames(lines[1..]);
    }
  }

  /** One component header per component not skipped, named by its type. */
  lemma ComponentHeaderOnce(e: Exporter, c: Component, depth: nat)
    ensures ComponentNames(ComponentLines(e, c, depth)) == if Skipped(e, c) then [] else [TypeName(c)]
  {
    if !Skipped(e, c) {
      var fl := FieldLines(e, c, depth);
      if c.Script? {
        ScriptProjection(e, c, depth);
      }
      assert forall i :: 0 <= i < |fl| ==> fl[i].FieldLine?;
      NoComponentNames(fl);
      ComponentNamesAppend([ComponentHeader(depth, TypeName(c))], fl);
    }
  }

  lemma {:induction false} ComponentsHeaders(e: Exporter, cs: seq<Component>, depth: nat)
    ensures ComponentNames(ComponentsLines(e, cs, depth)) == EmittedTypeNames(e, cs)
    decreases |cs|
  {
    if |cs| > 0 {
      ComponentHeaderOnce(e, cs[0], depth);
      ComponentsHeaders(e, cs[1..], depth);
      ComponentNamesAppend(ComponentLines(e, cs[0], depth), ComponentsLines(e, cs[1..], depth));
    }
  }

  /** The component headers of a node's record name, in component order,
      exactly the components the exporter does not skip. */
  lemma OwnComponentHeaders(e: Exporter, n: Node, depth: nat)
    ensures ComponentNames(OwnLines(e, n, depth)) == EmittedTypeNames(e, n.components)
  {
    var head := [ObjectHeader(depth, n.name)] + TransformLines(n, depth);
    NoComponentNames(head);
    ComponentsHeaders(e, n.components, depth);
    ComponentNamesAppend(head, ComponentsLines(e, n.components, depth));
  }

}

=== FILE: wrappers.dfy ===
/** The optional value used for absent field values, an unresolved selection
    and the reader functions that may fail. */
module Wrappers {

  datatype Option<+T> = None | Some(value: T)

}
